=== FILE: README.md ===
# MemberRoster classification core, in Dafny

MemberRoster downloads the weekly Premier HISCI member roster and turns the
combined tab-separated roster file into an Excel workbook with four sheets:
`SPG OLM`, `SPG Aff`, `LIDN OLM` and `LIDN Aff`. This project models the pure
part of that pipeline and proves what it does:

- **Line preprocessing** (`text.dfy`, module `Text`). Quotes and newlines
  are removed from each decoded line, and the line is split at tabs.
- **Column pruning** (`columns.dfy`, module `Columns`). A raw row is cut to
  26 fields (`row[:26]`), and `remove_columns` then pops the original
  positions 1, 2, 13, 14, 15, 17, 18, 21, 22, 23 and 24 with a running shift
  counter. `Pop` and `InsertBeforeLast` follow Python's `list.pop` and
  `list.insert(-1, …)` semantics, including negative indices and the
  IndexError.
- **Classification of a data row** (`classify.dfy`, module `Classify`).
  `append_rows` inserts the affiliate label before the last field. The
  first matching bucket wins, and the label is empty when nothing matches.
  The row is then appended once per matching entry of the SPG list (sheets
  0 and 1) and of the LIDN list (sheets 2 and 3), when its relationship
  suits the sheet. The two ID lists are the operator's constants, copied
  verbatim.
- **The line loop of `create_sheets`** (`roster.dfy`, module `Roster`).
  - Reading the status field faults on any line of at most 21 fields.
  - After the header, a line whose status is not "Active" is skipped.
  - Pruning faults on 22 to 24 fields.
  - Before the header, lines are dropped until one whose first pruned field
    is "GPO ID". That header row gets "Top Parent Affiliate" inserted before
    its last field and goes to all four sheets.
  - Every later line goes through `append_rows`.
  - The first fault ends the whole run, and the model reports it with its
    line number.
- **The driver** (`script.dfy`, module `Script`):
  - `find_link` takes the first of the offered roster links, or reports a
    login failure, and then `run_script` stops.
  - The workbook is named `MemberRoster_<month>_<day>.xlsx`, with unpadded
    decimals and no year.
  - Combined files are classified in listing order. The downloaded archive
    `output.exe` is written once but removed after every combined file, so
    the removal raises FileNotFoundError once a second combined file has been
    saved. Any later file is never built, and the workbook is never opened.
- **Errors** (`results.dfy`, module `Results`) hold the `Result` type and
  the two index faults.

The main theorems:

- `Roster.CreateSheetsSpec` covers a file of preamble lines, one header line
  and fault-free data lines. It yields four sheets, each holding the header
  row followed by exactly the data rows meant for that sheet, in file order.
- `Roster.ShortLineFaults` shows that a short line stops the run at that
  line.
- `Classify.AppendRows` shows that an ID listed k times appends the row k
  times.
- `Classify.DispatchConsequences` shows that a row never reaches both
  sheets of one family.

A row with top parent `635796` and relationship `Owned` lands in both
`SPG OLM` and `LIDN OLM`, because `635796` is on both lists
(`Classify.AdventistOwnedExample`).

Rows of exactly 25 raw fields prune to 14 fields rather than 15. Their
affiliate label therefore sits one column to the left of the header's "Top
Parent Affiliate" title. The model keeps this as the code has it
(`Columns.Prune`, `Classify.LabelRowShape`).

## Model

| member | source | states |
|---|---|---|
| `Text.Remove` | dist/MemberRoster.app/Contents/Resources/MemberRoster.py:141-144 | `replace(c, "")` never lengthens the string; `Text.RemoveContract` states what it removes and keeps |
| `Text.RemoveContract` | dist/MemberRoster.app/Contents/Resources/MemberRoster.py:141-144 | `replace(c, "")` leaves no `c`, leaves a string without `c` unchanged, and keeps the count of every other character |
| `Text.RemoveAppend` | dist/MemberRoster.app/Contents/Resources/MemberRoster.py:141-144 | removal distributes over concatenation, so the kept characters stay in their original order |
| `Text.Clean` | dist/MemberRoster.app/Contents/Resources/MemberRoster.py:140-144 | the quote and newline removal of each line; its contract is `Text.CleanContract` |
| `Text.CleanContract` | dist/MemberRoster.app/Contents/Resources/MemberRoster.py:140-144 | a cleaned line holds no quote and no newline, a line holding neither is unchanged, and every other character keeps its count |
| `Text.Split` | dist/MemberRoster.app/Contents/Resources/MemberRoster.py:146-147 | `split("\t")` gives at least one field; `Text.SplitContract`, `Text.JoinSplit` and `Text.SplitJoin` state the rest |
| `Text.SplitContract` | dist/MemberRoster.app/Contents/Resources/MemberRoster.py:146-147 | `split("\t")` gives one more field than the line has tabs, and no field holds a tab |
| `Text.JoinSplit` | dist/MemberRoster.app/Contents/Resources/MemberRoster.py:146-147 | splitting loses nothing: re-joining the fields with tabs gives the line back |
| `Text.SplitJoin` | dist/MemberRoster.app/Contents/Resources/MemberRoster.py:146-147 | splitting the tab-join of tab-free fields gives the same fields back, so split and join are mutually inverse |
| `Columns.Pop` | dist/MemberRoster.app/Contents/Resources/MemberRoster.py:207 | `list.pop(k)` succeeds exactly when `-len <= k < len`, and otherwise raises an IndexError, which the model's `ColumnPop` records together with `k`; it removes exactly the field at `k` (counted from the end when negative) and keeps the others in order |
| `Columns.InsertBeforeLast` | dist/MemberRoster.app/Contents/Resources/MemberRoster.py:162 | `list.insert(-1, v)` places `v` just before the last field, or alone in an empty list, and keeps every other field |
| `Columns.InsertThenPop` | dist/MemberRoster.app/Contents/Resources/MemberRoster.py:162 | `pop(-2)` undoes `insert(-1, v)` on any non-empty row |
| `Columns.Truncate` | dist/MemberRoster.app/Contents/Resources/MemberRoster.py:155 | `row[:n]` is the prefix of length `min(len, n)` |
| `Columns.RemoveColumnsFrom` | dist/MemberRoster.app/Contents/Resources/MemberRoster.py:204-208 | a successful `remove_columns` shortens the row by one field per number, and a failure is always a pop IndexError |
| `Columns.RemoveColumns` | dist/MemberRoster.app/Contents/Resources/MemberRoster.py:204-208 | `remove_columns` with the shift counter starting at 0; its contract is stated by `Columns.RemoveColumnsFrom` and `Columns.RemoveColumnsShifted` |
| `Columns.RemoveColumnsFault` | dist/MemberRoster.app/Contents/Resources/MemberRoster.py:204-208 | when the pops before it succeed and an original position lies past the end of the row, `remove_columns` fails there with the shifted index `num - i` |
| `Columns.ErasePopped` | dist/MemberRoster.app/Contents/Resources/MemberRoster.py:205-208 | popping `num - i` and then erasing the remaining positions from the shorter row erases the same fields as erasing all positions from the original row |
| `Columns.RemoveColumnsShifted` | dist/MemberRoster.app/Contents/Resources/MemberRoster.py:204-208 | for a strictly ascending list, the shift counter makes every pop hit its original position: all pops succeed exactly when every position is inside the row, and the result equals the independent "erase these positions" definition |
| `Columns.RemovedColumnsShape` | dist/MemberRoster.app/Contents/Resources/MemberRoster.py:156 | the fixed position list is strictly ascending, ends at 24, and names exactly positions 1, 2, 13-15, 17, 18 and 21-24 |
| `Columns.PruneFault` | dist/MemberRoster.app/Contents/Resources/MemberRoster.py:155-156 | a raw row of 22 to 24 fields fails to prune at shifted index 14 |
| `Columns.PruneSelects` | dist/MemberRoster.app/Contents/Resources/MemberRoster.py:155-156 | truncating and removing columns succeeds exactly on rows of at least 25 fields, keeping fields 0, 3-12, 16, 19, 20 and then field 25 when the row has it |
| `Columns.KeptFields` | dist/MemberRoster.app/Contents/Resources/MemberRoster.py:155-156 | the kept fields of that shape are the raw fields at positions 0, 3-12, 16, 19, 20 and 25: 15 of them for 26 or more raw fields, 14 for exactly 25 |
| `Columns.Prune` | dist/MemberRoster.app/Contents/Resources/MemberRoster.py:155-156 | pruning faults exactly on rows of at most 24 fields, always with a pop fault, and on 22 to 24 fields always at shifted index 14; otherwise field `k` of the result is raw field `KeptColumns[k]`, giving 15 fields from 26 or more raw fields and 14 from exactly 25 |
| `Classify.AffiliateLabel` | dist/MemberRoster.app/Contents/Resources/MemberRoster.py:179-189 | the label names exactly the bucket (Adventist, Mercy, Peace, Presence) that holds the top-parent ID, and is empty exactly when no bucket does |
| `Classify.LabelRow` | dist/MemberRoster.app/Contents/Resources/MemberRoster.py:176-189 | the label insertion of `append_rows`; its contract is `Classify.LabelRowShape` |
| `Classify.LabelRowShape` | dist/MemberRoster.app/Contents/Resources/MemberRoster.py:176-189 | the labelled row is one field longer, carries the label just before its last field, and `pop(-2)` gives back the pruned row |
| `Classify.AppendMatches` | dist/MemberRoster.app/Contents/Resources/MemberRoster.py:192-195 | one `for id in ids` loop leaves the earlier rows and adds one copy of the row per list entry equal to the ID, provided the relationship suits the sheet |
| `Classify.AppendRows` | dist/MemberRoster.app/Contents/Resources/MemberRoster.py:175-201 | each sheet keeps its rows and gains one copy of the labelled row per occurrence of the top-parent ID in its family's list, and none when the relationship does not suit the sheet |
| `Classify.SpgIdsDistinct` | dist/MemberRoster.app/Contents/Resources/MemberRoster.py:20 | the SPG list has no repeated ID |
| `Classify.LidnIdsDistinct` | dist/MemberRoster.app/Contents/Resources/MemberRoster.py:22 | the LIDN list has no repeated ID |
| `Classify.AppendRowsOnce` | dist/MemberRoster.app/Contents/Resources/MemberRoster.py:192-201 | with duplicate-free lists, a sheet gains the labelled row exactly once when its list holds the ID and the relationship suits it, and is otherwise unchanged |
| `Classify.DispatchConsequences` | dist/MemberRoster.app/Contents/Resources/MemberRoster.py:192-201 | a row never reaches both sheets of one family; it reaches no sheet when its ID is on neither list or its relationship is in neither bucket; an owned, leased or managed row whose ID is on both lists reaches both OLM sheets |
| `Classify.AdventistOwnedExample` | dist/MemberRoster.app/Contents/Resources/MemberRoster.py:179-201 | a row with top parent 635796 and relationship Owned is labelled "Adventist Health Aff" and lands in `SPG OLM` and `LIDN OLM` only |
| `Roster.Fields` | dist/MemberRoster.app/Contents/Resources/MemberRoster.py:140-147 | a line yields one more field than it has tabs, and the tab-joined fields are the cleaned line |
| `Roster.Parse` | dist/MemberRoster.app/Contents/Resources/MemberRoster.py:149-156 | a line has no status exactly when it has at most 21 fields and is unprunable exactly when it has 22 to 24; the status is raw field 21, and the recorded pruning outcome is `Prune`'s |
| `Roster.Accept` | dist/MemberRoster.app/Contents/Resources/MemberRoster.py:158-168 | `first_row_appended` never goes back to false, sheets only grow, a state is unchanged until the header is seen, and the well-formedness of the sheets is kept |
| `Roster.Step` | dist/MemberRoster.app/Contents/Resources/MemberRoster.py:148-168 | one iteration of the line loop; its contract is `Roster.StepContract`, with `Roster.StepHeader` and `Roster.StepAfterHeader` for the header and data cases |
| `Roster.StepContract` | dist/MemberRoster.app/Contents/Resources/MemberRoster.py:148-168 | one iteration raises the status fault exactly on lines without a status, and raises a pop fault exactly on unprunable lines that are not skipped as inactive after the header; a skipped line leaves the state alone; an accepted line only appends and keeps the state well formed |
| `Roster.Run` | dist/MemberRoster.app/Contents/Resources/MemberRoster.py:139-168 | the line loop; its contract is stated by `Roster.RunFaultLine`, `Roster.RunOk`, `Roster.RunAppend` and `Roster.RunFaultsAt` |
| `Roster.RunFaultLine` | dist/MemberRoster.app/Contents/Resources/MemberRoster.py:139-168 | a fault is reported at one of the lines the loop ran over |
| `Roster.RunOk` | dist/MemberRoster.app/Contents/Resources/MemberRoster.py:139-168 | a run without a fault read a status on every line, only appended to the sheets, and kept them well formed |
| `Roster.CreateSheetsWith` | dist/MemberRoster.app/Contents/Resources/MemberRoster.py:129-168 | `create_sheets` faults at one of its lines; without a fault every line had more than 21 fields, and the four sheets are all empty or all start with the same header row |
| `Roster.RunAppend` | dist/MemberRoster.app/Contents/Resources/MemberRoster.py:139-168 | the loop over `a + b` is the loop over `a` followed by the loop over `b`, and a fault in `a` ends the run there |
| `Roster.RunBeforeHeader` | dist/MemberRoster.app/Contents/Resources/MemberRoster.py:150-168 | before the header, prunable lines without "GPO ID" are dropped and leave the state as it was |
| `Roster.HeaderRow` | dist/MemberRoster.app/Contents/Resources/MemberRoster.py:161-163 | the header row built from the pruned header line; its contract is `Roster.StepHeader` |
| `Roster.StepHeader` | dist/MemberRoster.app/Contents/Resources/MemberRoster.py:161-168 | the header line goes to all four sheets with "Top Parent Affiliate" inserted before its last field, and the header flag is set |
| `Roster.StepAfterHeader` | dist/MemberRoster.app/Contents/Resources/MemberRoster.py:150-160 | after the header, an inactive line is skipped; an active line adds to each sheet one copy of its labelled row per match of `append_rows`, for any ID lists |
| `Roster.ContributionOnce` | dist/MemberRoster.app/Contents/Resources/MemberRoster.py:192-201 | with duplicate-free ID lists, such as the operator's, an active data line adds its labelled row exactly once to each sheet whose list holds its ID and whose relationship bucket holds its relationship, and nothing to the others |
| `Roster.RunAfterHeader` | dist/MemberRoster.app/Contents/Resources/MemberRoster.py:150-160 | after the header, each sheet gains exactly its data rows, after the rows it had, in line order |
| `Roster.LineKinds` | dist/MemberRoster.app/Contents/Resources/MemberRoster.py:147-161 | preamble, header and fault-free data lines, read off the raw split fields: field counts, field 0 and the status field |
| `Roster.RunFromHeader` | dist/MemberRoster.app/Contents/Resources/MemberRoster.py:158-168 | from the initial state, the header line followed by fault-free data lines gives each sheet the header row followed by its data rows |
| `Roster.RunSpec` | dist/MemberRoster.app/Contents/Resources/MemberRoster.py:139-168 | preamble lines, then the header line, then fault-free data lines give four sheets, each holding the header row followed by the data rows meant for it, in file order |
| `Roster.CreateSheets` | dist/MemberRoster.app/Contents/Resources/MemberRoster.py:129-168 | `create_sheets` with the operator's ID lists; its contract is stated by `Roster.CreateSheetsSpec`, `Roster.NoHeaderSpec` and `Roster.ShortLineFaults` |
| `Roster.CreateSheetsSpec` | dist/MemberRoster.app/Contents/Resources/MemberRoster.py:129-168 | the same for `create_sheets` with the operator's ID lists, the header being line `h` of the file |
| `Roster.NoHeaderSpec` | dist/MemberRoster.app/Contents/Resources/MemberRoster.py:158-168 | a file whose lines all prune and none of which starts with "GPO ID" gives four empty sheets |
| `Roster.RunNoHeader` | dist/MemberRoster.app/Contents/Resources/MemberRoster.py:139-168 | before the header, a fault-free run over lines none of which is the header line pruned every one of them |
| `Roster.NoHeaderConverse` | dist/MemberRoster.app/Contents/Resources/MemberRoster.py:129-168 | a header-less file that does not fault consists only of lines that prune and do not start with "GPO ID", and gives four empty sheets: with `Roster.NoHeaderSpec`, these are exactly the header-less files that do not fault |
| `Roster.RunFaultsAt` | dist/MemberRoster.app/Contents/Resources/MemberRoster.py:139-156 | the first line whose iteration faults ends the run with that fault and that line's number, whatever follows it |
| `Roster.ShortLineFaults` | dist/MemberRoster.app/Contents/Resources/MemberRoster.py:150 | a line of at most 21 fields stops `create_sheets` with the status-read fault at that line, header or no header, unless an earlier line faulted first |
| `Script.FindLink` | dist/MemberRoster.app/Contents/Resources/MemberRoster.py:97-105 | a login failure happens exactly when no roster link is offered; otherwise the first link is taken |
| `Script.FindLinkMostRecent` | dist/MemberRoster.app/Contents/Resources/MemberRoster.py:99-105 | the most recent (first) link is chosen, whatever older links follow it |
| `Script.Decimal` | dist/MemberRoster.app/Contents/Resources/MemberRoster.py:68 | `str(n)` is a non-empty string of decimal digits with no leading zero except for 0 itself; `Script.DecimalRoundTrip` shows it reads back as `n` |
| `Script.DecimalRoundTrip` | dist/MemberRoster.app/Contents/Resources/MemberRoster.py:68 | `str(n)` of a month or day reads back as `n` |
| `Script.OutputFileName` | dist/MemberRoster.app/Contents/Resources/MemberRoster.py:68 | the name starts with `MemberRoster_`, ends with `.xlsx`, and between them holds the month's decimal, `_` and the day's decimal, in that order |
| `Script.OutputFileNameExamples` | dist/MemberRoster.app/Contents/Resources/MemberRoster.py:68 | no zero-padding: March 7 gives `MemberRoster_3_7.xlsx` and December 25 gives `MemberRoster_12_25.xlsx` |
| `Script.OutputFileNameInjective` | dist/MemberRoster.app/Contents/Resources/MemberRoster.py:68 | different (month, day) pairs never share a file name, while the name carries no year |
| `Script.FirstFault` | dist/MemberRoster.app/Contents/Resources/MemberRoster.py:71-84 | the loop over the combined files, ended by the first exception; its contract is `Script.FirstFaultContract` |
| `Script.FirstFaultContract` | dist/MemberRoster.app/Contents/Resources/MemberRoster.py:71-84 | combined files are handled in listing order, and the first exception ends the loop: all results come through when none fails; otherwise the reported failure is the first one, and the results before it come through in place |
| `Script.RunScriptOutcome` | dist/MemberRoster.app/Contents/Resources/MemberRoster.py:47-95 | `run_script` stops exactly when no roster link is offered; with one combined file or none, a fault-free run finishes with that file's sheets saved under the dated name; with two or more, the first two are built and saved and the second removal of the archive then ends the run; a fault names the first faulting file (one of the first two) and its `create_sheets` fault, and carries the workbooks saved for the files before it |
| `Script.RunScript` | dist/MemberRoster.app/Contents/Resources/MemberRoster.py:47-95 | the run as a whole; its contract is stated by `Script.RunScriptOutcome` and `Script.RunScriptIgnoresLaterFiles` |
| `Script.SecondFileFaultsExample` | dist/MemberRoster.app/Contents/Resources/MemberRoster.py:71-84 | an empty first file and a one-field second file: the first file's workbook is saved, then the second file's status read ends the run |
| `Script.RunScriptIgnoresLaterFiles` | dist/MemberRoster.app/Contents/Resources/MemberRoster.py:71-84 | combined files listed after the second one never change the outcome, because the run has ended before reaching them |
| `Script.TwoFilesExample` | dist/MemberRoster.app/Contents/Resources/MemberRoster.py:71-84 | two empty combined files: both workbooks are saved and the run then ends on the missing archive |

## Left out

- The window, `main`, `login` and the UI callbacks (`UserInterface.py`) are
  not modelled. `login_failed` is the `LoginFailed` result of `FindLink`.
- The network is not modelled: RoboBrowser, the page's link text matching
  and `download_zip`. The roster links arrive as an already filtered
  sequence, most recent first.
- `extract_zip`, `os.listdir` and `os.system` are not modelled. The lines
  of the combined files arrive in listing order. Removing files is modelled
  only through one consequence: the second removal of `output.exe` raises
  (`ArchiveGone`). Opening the workbook has no counterpart.
- `Script.RunScript` lists every workbook saved before the run ends, at
  most two, whether the run ends by finishing, by a fault or by the missing
  archive. On disk only the last one remains, because each save reuses the
  dated name. A run that finds no combined file finishes with no workbook,
  while the program then tries to open a file that does not exist. Removing
  the `.txt` files that are not combined files is not modelled, and neither
  is their place in the listing.
- The codecs decoding (lossy UTF-8, `errors="ignore"`) and the cutting of
  the file into lines are not modelled. Lines are decoded strings, each
  possibly still ending in its newline.
- Workbook styling (`style_columns`) and the openpyxl cell layout are not
  modelled. A sheet is the sequence of its rows.
- `Roster.StepContract`, `Roster.RunSpec` and `Roster.CreateSheetsSpec` do
  not model faults raised by openpyxl's `Worksheet.append`. When a cell
  value holds a control character other than tab, newline or carriage
  return, such as NUL or `\x1a`, openpyxl raises `IllegalCharacterError` and
  the run ends. It also cuts a longer cell value to 32,767 characters. The
  model's sheets hold the fields as read, and its only faults are the two
  index faults of the loop. openpyxl is not part of this model.
- `date.today()` is not modelled: month and day are inputs.
- `Roster.CreateSheetsWith` takes the two ID lists as a parameter so that
  the loop's proofs hold for any lists. `Roster.CreateSheets` fixes them to
  the operator's lists. The whole-file results count one copy of a row per
  match, so they hold for lists with repeated IDs too. `Classify.AppendRowsOnce`
  and `Roster.ContributionOnce` turn the count into a membership test for
  duplicate-free lists. The operator's lists are duplicate-free
  (`Classify.SpgIdsDistinct`, `Classify.LidnIdsDistinct`).
- `Classify.AppendRows`, `Classify.LabelRowShape` and `Roster.Accept`
  require a row of at least 13 fields. `append_rows` is only ever called on
  a pruned row, which has 14 or 15 fields. On a shorter row Python would
  raise at `row[12]`, and that case cannot arise.
- Each line is cleaned, split, status-checked and pruned ahead of the loop
  (`Roster.Parse`), and the loop then decides which of these results it
  uses. Pruning has no side effect, so this ordering changes nothing.
  Faults are reported in the source's order: the status read first, then
  pruning, and only when the source would prune.
- `Roster.CreateSheetsSpec` covers files laid out as preamble lines, a
  header line and fault-free data lines. Faulting files are covered by
  `Roster.ShortLineFaults` and `Roster.RunFaultsAt`, and files without a
  header by `Roster.NoHeaderSpec`.

=== FILE: classify.dfy ===
/** Classification of one pruned data row (`append_rows`): the affiliate
    label inserted before its last field, and the sheets it is appended
    to, found by walking the two static ID lists. */
module Classify {
  import opened Results
  import opened Columns

  /** The four output sheets, in workbook order:
      0 `SPG OLM`, 1 `SPG Aff`, 2 `LIDN OLM`, 3 `LIDN Aff`. */
  type Sheets = s: seq<seq<Row>> | |s| == 4 witness [[], [], [], []]

  /** Operator-maintained top-parent IDs of the SPG group. */
  const SpgIds: seq<string> := [
    "CA2043", "FL0343", "FL2221", "MD0094", "658406", "CA2700", "MN2013", "PA2205",
    "IA2053", "MI2035", "649419", "MI2002", "OH2233", "TX0155", "KY5005", "WA0014",
    "IL2464", "MO0014", "TX2246", "635796", "CA0053", "616890", "CA053", "601045",
    "OH2004", "669907", "700273", "631225", "IL2185"]

  /** Operator-maintained top-parent IDs of the LIDN group. */
  const LidnIds: seq<string> := [
    "CA2043", "658406", "MN2013", "MI2035", "649419", "TX0155", "KY5005", "IL5043",
    "635796", "CA0053", "616890", "CA053", "601045"]

  /** Pruned-row columns holding the relationship and the top-parent ID. */
  const RelationshipColumn: int := 11
  const TopParentColumn: int := 12

  // The affiliate-label table, tried in this order.
  const AdventistIds: seq<string> := ["635796", "CA0053", "616890", "CA053", "601045"]
  const MercyIds: seq<string> := ["OH2004", "669907"]
  const PeaceId: string := "700273"
  const PresenceIds: seq<string> := ["631225", "IL2185"]

  const AdventistLabel: string := "Adventist Health Aff"
  const MercyLabel: string := "Mercy Health Aff"
  const PeaceLabel: string := "Peace Health Aff"
  const PresenceLabel: string := "Presence Health Network Aff"

  /** The label of a top-parent ID, first match wins. The four buckets
      are pairwise disjoint and the labels distinct, so the label names
      exactly the bucket the ID is in, and is empty when it is in none. */
  function AffiliateLabel(topParent: string): (name: string)
    ensures name == AdventistLabel <==> topParent in AdventistIds
    ensures name == MercyLabel <==> topParent in MercyIds
    ensures name == PeaceLabel <==> topParent == PeaceId
    ensures name == PresenceLabel <==> topParent in PresenceIds
    ensures name == "" <==>
      topParent !in AdventistIds && topParent !in MercyIds
      && topParent != PeaceId && topParent !in PresenceIds
  {
    if topParent in AdventistIds then AdventistLabel
    else if topParent in MercyIds then MercyLabel
    else if topParent == PeaceId then PeaceLabel
    else if topParent in PresenceIds then PresenceLabel
    else ""
  }

  predicate OwnedLeasedManaged(relationship: string) {
    relationship == "Owned" || relationship == "Leased" || relationship == "Managed"
  }

  predicate AffiliatedEmployed(relationship: string) {
    relationship == "Affiliated" || relationship == "Employed"
  }

  /** The data row with its affiliate label inserted before its last field. */
  function LabelRow(row: Row): Row
    requires |row| > TopParentColumn
  {
    InsertBeforeLast(row, AffiliateLabel(row[TopParentColumn]))
  }

  /** The label sits just before the row's last field, and popping it
      gives the row back. */
  lemma LabelRowShape(row: Row)
    requires |row| > TopParentColumn
    ensures |LabelRow(row)| == |row| + 1
    ensures LabelRow(row)[|row| - 1] == AffiliateLabel(row[TopParentColumn])
    ensures Pop(LabelRow(row), -2) == Ok(row)
  {
    InsertThenPop(row, AffiliateLabel(row[TopParentColumn]));
  }

  /** `n` copies of a row. */
  function Repeat(row: Row, n: nat): (r: seq<Row>)
    ensures |r| == n
    ensures forall i :: 0 <= i < n ==> r[i] == row
  {
    if n == 0 then [] else [row] + Repeat(row, n - 1)
  }

  /** Appending a row after its repeats is one more repeat. */
  lemma AppendRepeat(sheet: seq<Row>, row: Row, n: nat)
    ensures sheet + [row] + Repeat(row, n) == sheet + Repeat(row, n + 1)
  {
    assert Repeat(row, n + 1) == [row] + Repeat(row, n);
  }

  /** One of the two `if`s in a `for id in ids` loop of `append_rows`:
      each list entry equal to the top-parent ID appends the row to the
      sheet, provided the relationship suits the sheet. So the sheet grows
      by one copy of the row per occurrence of the ID in the list. */
  function AppendMatches(ids: seq<string>, topParent: string, suits: bool,
                         row: Row, sheet: seq<Row>): (r: seq<Row>)
    ensures r == sheet + Repeat(row, if suits then multiset(ids)[topParent] else 0)
    decreases |ids|
  {
    if ids == [] then sheet
    else
      assert ids == [ids[0]] + ids[1..];
      var n := multiset(ids[1..])[topParent];
      if ids[0] == topParent && suits then
        AppendRepeat(sheet, row, n);
        AppendMatches(ids[1..], topParent, suits, row, sheet + [row])
      else
        AppendMatches(ids[1..], topParent, suits, row, sheet)
  }

  /** No entry at a position in `lo..hi` reappears later in the list. */
  predicate DistinctFrom(s: seq<string>, lo: nat, hi: nat) {
    forall i, j :: lo <= i < hi && i < j < |s| ==> s[i] != s[j]
  }

  predicate NoDuplicates(s: seq<string>) {
    DistinctFrom(s, 0, |s|)
  }

  lemma JoinSlices(s: seq<string>, lo: nat, mid: nat, hi: nat)
    requires DistinctFrom(s, lo, mid) && DistinctFrom(s, mid, hi)
    ensures DistinctFrom(s, lo, hi)
  {
  }

  /** In a list without duplicates every ID occurs at most once. */
  lemma {:induction false} NoDuplicatesCount(s: seq<string>, x: string)
    requires NoDuplicates(s)
    ensures multiset(s)[x] == if x in s then 1 else 0
    decreases |s|
  {
    if s != [] {
      assert s == [s[0]] + s[1..];
      assert NoDuplicates(s[1..]);
      NoDuplicatesCount(s[1..], x);
      assert s[0] !in s[1..];
    }
  }

  // Neither ID list repeats an ID. The SPG list is checked a few entries
  // at a time, each entry against every later one.
  lemma SpgSlice0() ensures DistinctFrom(SpgIds, 0, 1) { }
  lemma SpgSlice1() ensures DistinctFrom(SpgIds, 1, 2) { }
  lemma SpgSlice2() ensures DistinctFrom(SpgIds, 2, 3) { }
  lemma SpgSlice3() ensures DistinctFrom(SpgIds, 3, 6) { }
  lemma SpgSlice6() ensures DistinctFrom(SpgIds, 6, 13) { }
  lemma SpgSlice13() ensures DistinctFrom(SpgIds, 13, 29) { }

  lemma SpgIdsDistinct()
    ensures NoDuplicates(SpgIds)
  {
    SpgSlice0(); SpgSlice1(); SpgSlice2(); SpgSlice3(); SpgSlice6(); SpgSlice13();
    JoinSlices(SpgIds, 0, 1, 2);
    JoinSlices(SpgIds, 0, 2, 3);
    JoinSlices(SpgIds, 0, 3, 6);
    JoinSlices(SpgIds, 0, 6, 13);
    JoinSlices(SpgIds, 0, 13, 29);
  }

  lemma LidnIdsDistinct()
    ensures NoDuplicates(LidnIds)
  {
  }

  /** The two top-parent ID lists `append_rows` walks. */
  datatype IdLists = IdLists(spg: seq<string>, lidn: seq<string>)

  /** The lists as the operator has edited them into the program. */
  const OperatorLists: IdLists := IdLists(SpgIds, LidnIds)

  /** The ID list walked for a sheet: SPG for sheets 0 and 1, LIDN for
      sheets 2 and 3. */
  function FamilyIds(ids: IdLists, sheet: nat): seq<string> {
    if sheet < 2 then ids.spg else ids.lidn
  }

  /** Whether a relationship suits a sheet: Owned/Leased/Managed for the
      OLM sheets 0 and 2, Affiliated/Employed for the Aff sheets 1 and 3. */
  predicate Suits(sheet: nat, relationship: string) {
    if sheet % 2 == 0 then OwnedLeasedManaged(relationship) else AffiliatedEmployed(relationship)
  }

  /** How many times `append_rows` appends a row to a sheet: once per
      occurrence of its top-parent ID in the sheet's list when its
      relationship suits the sheet. */
  function Matches(ids: IdLists, sheet: nat, row: Row): nat
    requires |row| > TopParentColumn
  {
    if Suits(sheet, row[RelationshipColumn]) then multiset(FamilyIds(ids, sheet))[row[TopParentColumn]] else 0
  }

  /** Which sheets a pruned data row belongs to, as a membership test:
      the sheet's ID list must hold the top-parent ID and the
      relationship must suit the sheet. */
  predicate Receives(ids: IdLists, sheet: nat, row: Row)
    requires |row| > TopParentColumn
  {
    row[TopParentColumn] in FamilyIds(ids, sheet) && Suits(sheet, row[RelationshipColumn])
  }

  /** `append_rows`: label the row, then walk the SPG list for sheets 0
      and 1 and the LIDN list for sheets 2 and 3. Each sheet gains one
      copy of the labelled row per match, after its earlier rows. */
  function AppendRows(ids: IdLists, sheets: Sheets, row: Row): (r: Sheets)
    requires |row| > TopParentColumn
    ensures forall k :: 0 <= k < 4 ==>
      r[k] == sheets[k] + Repeat(LabelRow(row), Matches(ids, k, row))
  {
    var topParent, relationship := row[TopParentColumn], row[RelationshipColumn];
    var labelled := LabelRow(row);
    [ AppendMatches(ids.spg, topParent, OwnedLeasedManaged(relationship), labelled, sheets[0]),
      AppendMatches(ids.spg, topParent, AffiliatedEmployed(relationship), labelled, sheets[1]),
      AppendMatches(ids.lidn, topParent, OwnedLeasedManaged(relationship), labelled, sheets[2]),
      AppendMatches(ids.lidn, topParent, AffiliatedEmployed(relationship), labelled, sheets[3]) ]
  }

  predicate Distinct(ids: IdLists) {
    NoDuplicates(ids.spg) && NoDuplicates(ids.lidn)
  }

  lemma OperatorListsDistinct()
    ensures Distinct(OperatorLists)
  {
    SpgIdsDistinct();
    LidnIdsDistinct();
  }

  /** With duplicate-free lists, such as the operator's, each sheet gains
      the labelled row exactly once when `Receives` holds and is untouched
      otherwise. */
  lemma AppendRowsOnce(ids: IdLists, sheets: Sheets, row: Row)
    requires |row| > TopParentColumn
    requires Distinct(ids)
    ensures forall k :: 0 <= k < 4 ==>
      AppendRows(ids, sheets, row)[k] == sheets[k] + (if Receives(ids, k, row) then [LabelRow(row)] else [])
  {
    NoDuplicatesCount(ids.spg, row[TopParentColumn]);
    NoDuplicatesCount(ids.lidn, row[TopParentColumn]);
  }

  /** Relationship buckets are disjoint, so a row reaches at most one
      sheet of each family, and none when its top-parent ID is in neither
      list or its relationship in neither bucket; an owned, leased or
      managed row whose ID is on both lists reaches both OLM sheets. */
  lemma DispatchConsequences(ids: IdLists, row: Row)
    requires |row| > TopParentColumn
    ensures !(Receives(ids, 0, row) && Receives(ids, 1, row))
    ensures !(Receives(ids, 2, row) && Receives(ids, 3, row))
    ensures row[TopParentColumn] !in ids.spg && row[TopParentColumn] !in ids.lidn ==>
      forall k :: 0 <= k < 4 ==> !Receives(ids, k, row)
    ensures !OwnedLeasedManaged(row[RelationshipColumn]) && !AffiliatedEmployed(row[RelationshipColumn]) ==>
      forall k :: 0 <= k < 4 ==> !Receives(ids, k, row)
    ensures (row[TopParentColumn] in ids.spg && row[TopParentColumn] in ids.lidn
             && OwnedLeasedManaged(row[RelationshipColumn])) ==> Receives(ids, 0, row) && Receives(ids, 2, row)
  {
  }

  /** An Adventist top parent owned outright: labelled "Adventist Health
      Aff" and appended to `SPG OLM` and `LIDN OLM`, since 635796 is on
      both lists, and to neither Aff sheet. */
  lemma AdventistOwnedExample(row: Row)
    requires |row| > TopParentColumn
    requires row[TopParentColumn] == "635796" && row[RelationshipColumn] == "Owned"
    ensures AffiliateLabel(row[TopParentColumn]) == AdventistLabel
    ensures Receives(OperatorLists, 0, row) && !Receives(OperatorLists, 1, row)
    ensures Receives(OperatorLists, 2, row) && !Receives(OperatorLists, 3, row)
  {
    assert SpgIds[19] == "635796";
    assert LidnIds[8] == "635796";
  }
}

=== FILE: columns.dfy ===
/** Positional list edits on a roster row: `list.pop`, `list.insert(-1, …)`,
    the slice `row[:26]` and `remove_columns`, which pops a strictly
    ascending list of original positions using a running shift counter. */
module Columns {
  import opened Results

  /** One row of the roster: its fields in column order. */
  type Row = seq<string>

  /** Width the raw row is cut to before pruning (`row[:26]`). */
  const TruncateWidth: int := 26

  /** Original positions popped by the pipeline, strictly ascending. */
  const RemovedColumns: seq<int> := [1, 2, 13, 14, 15, 17, 18, 21, 22, 23, 24]

  /** Original positions that survive pruning, in order. */
  const KeptColumns: seq<int> := [0, 3, 4, 5, 6, 7, 8, 9, 10, 11, 12, 16, 19, 20, 25]

  predicate StrictlyAscending(s: seq<int>) {
    forall i, j :: 0 <= i < j < |s| ==> s[i] < s[j]
  }

  /** `row.pop(index)`: Python accepts `-|row| <= index < |row|`, a negative
      index counting from the end; anything else is an IndexError. */
  function Pop(row: Row, index: int): (r: Result<Row, IndexError>)
    ensures r.Ok? <==> -|row| <= index < |row|
    ensures r.Err? ==> r.error == ColumnPop(index)
    ensures r.Ok? ==> |r.value| == |row| - 1
    ensures r.Ok? ==>
      var j := if index < 0 then |row| + index else index;
      && (forall i :: 0 <= i < j ==> r.value[i] == row[i])
      && (forall i :: j <= i < |r.value| ==> r.value[i] == row[i + 1])
  {
    if -|row| <= index < |row| then
      var j := if index < 0 then |row| + index else index;
      Ok(row[..j] + row[j + 1..])
    else
      Err(ColumnPop(index))
  }

  /** `row.insert(-1, value)`: the value lands just before the last field,
      or alone in an empty row. */
  function InsertBeforeLast(row: Row, value: string): (r: Row)
    ensures |r| == |row| + 1
    ensures forall i :: 0 <= i < |row| - 1 ==> r[i] == row[i]
    ensures |row| == 0 ==> r == [value]
    ensures |row| > 0 ==> r[|row| - 1] == value && r[|row|] == row[|row| - 1]
  {
    if |row| == 0 then [value]
    else row[..|row| - 1] + [value] + [row[|row| - 1]]
  }

  /** Popping the second-to-last field undoes `InsertBeforeLast` on any
      non-empty row: every other field keeps its value and its order. */
  lemma InsertThenPop(row: Row, value: string)
    requires |row| > 0
    ensures Pop(InsertBeforeLast(row, value), -2) == Ok(row)
  {
    var r := InsertBeforeLast(row, value);
    assert Pop(r, -2).value == row;
  }

  /** `row[:n]` */
  function Truncate(row: Row, n: nat): (r: Row)
    ensures |r| == if |row| <= n then |row| else n
    ensures r == row[..|r|]
  {
    if |row| <= n then row else row[..n]
  }

  /** `remove_columns(numbers, row)` from the point where `shift` pops have
      already happened: the next pop is at `numbers[0] - shift`. */
  function RemoveColumnsFrom(numbers: seq<int>, row: Row, shift: int): (r: Result<Row, IndexError>)
    ensures r.Ok? ==> |r.value| == |row| - |numbers|
    ensures r.Err? ==> r.error.ColumnPop?
    decreases |numbers|
  {
    if numbers == [] then Ok(row)
    else
      var popped :- Pop(row, numbers[0] - shift);
      RemoveColumnsFrom(numbers[1..], popped, shift + 1)
  }

  /** `remove_columns(numbers, row)`: the shift counter starts at 0. */
  function RemoveColumns(numbers: seq<int>, row: Row): Result<Row, IndexError>
  {
    RemoveColumnsFrom(numbers, row, 0)
  }

  /** The positions a list of column numbers names. */
  function Positions(numbers: seq<int>): set<int>
  {
    set i | 0 <= i < |numbers| :: numbers[i]
  }

  /** Reference definition of "remove these positions": the fields of
      `row` whose position, counted from `base`, is not in `drop`, in
      their original order. */
  function ErasePositions(row: Row, drop: set<int>, base: int): Row
    decreases |row|
  {
    if row == [] then []
    else (if base in drop then [] else [row[0]]) + ErasePositions(row[1..], drop, base + 1)
  }

  lemma {:induction false} EraseAppend(x: Row, y: Row, drop: set<int>, base: int)
    ensures ErasePositions(x + y, drop, base)
         == ErasePositions(x, drop, base) + ErasePositions(y, drop, base + |x|)
    decreases |x|
  {
    if x == [] {
      assert x + y == y;
    } else {
      assert (x + y)[0] == x[0];
      assert (x + y)[1..] == x[1..] + y;
      EraseAppend(x[1..], y, drop, base + 1);
    }
  }

  lemma {:induction false} EraseNone(x: Row, drop: set<int>, base: int)
    requires forall i :: base <= i < base + |x| ==> i !in drop
    ensures ErasePositions(x, drop, base) == x
    decreases |x|
  {
    if x != [] {
      EraseNone(x[1..], drop, base + 1);
      assert x == [x[0]] + x[1..];
    }
  }

  lemma {:induction false} EraseAll(x: Row, drop: set<int>, base: int)
    requires forall i :: base <= i < base + |x| ==> i in drop
    ensures ErasePositions(x, drop, base) == []
    decreases |x|
  {
    if x != [] {
      EraseAll(x[1..], drop, base + 1);
    }
  }

  /** Only the positions the row covers matter. */
  lemma {:induction false} EraseAgree(x: Row, drop: set<int>, drop': set<int>, base: int)
    requires forall i :: base <= i < base + |x| ==> (i in drop <==> i in drop')
    ensures ErasePositions(x, drop, base) == ErasePositions(x, drop', base)
    decreases |x|
  {
    if x != [] {
      EraseAgree(x[1..], drop, drop', base + 1);
    }
  }

  /** Erasure over a prefix whose positions are all removed. */
  lemma DropPrefix(y: Row, w: Row, drop: set<int>, base: int)
    requires forall i :: base <= i < base + |y| ==> i in drop
    ensures ErasePositions(y + w, drop, base) == ErasePositions(w, drop, base + |y|)
  {
    EraseAppend(y, w, drop, base);
    EraseAll(y, drop, base);
  }

  /** Erasure over a prefix whose positions are all kept. */
  lemma KeepPrefix(z: Row, w: Row, drop: set<int>, base: int)
    requires forall i :: base <= i < base + |z| ==> i !in drop
    ensures ErasePositions(z + w, drop, base) == z + ErasePositions(w, drop, base + |z|)
  {
    EraseAppend(z, w, drop, base);
    EraseNone(z, drop, base);
  }

  /** The positions of a list: its first entry and those of the rest,
      all larger than the first when it is the smallest. */
  lemma PositionsFirst(numbers: seq<int>)
    requires numbers != []
    requires forall i :: 1 <= i < |numbers| ==> numbers[0] < numbers[i]
    ensures Positions(numbers) == {numbers[0]} + Positions(numbers[1..])
    ensures forall x :: x in Positions(numbers[1..]) ==> numbers[0] < x
  {
    assert forall i :: 1 <= i < |numbers| ==> numbers[i] == numbers[1..][i - 1];
  }

  /** Erasure over kept fields, one removed field and the rest. */
  lemma EraseAroundDropped(before: Row, x: string, after: Row, drop: set<int>, base: int)
    requires forall i :: base <= i < base + |before| ==> i !in drop
    requires base + |before| in drop
    ensures ErasePositions(before + ([x] + after), drop, base)
         == before + ErasePositions(after, drop, base + |before| + 1)
  {
    KeepPrefix(before, [x] + after, drop, base);
    DropPrefix([x], after, drop, base + |before|);
  }

  /** Popping the first named position from the row and erasing the
      other positions, one further along, erases the same fields as
      erasing all named positions from the row. */
  lemma ErasePopped(numbers: seq<int>, row: Row, shift: int)
    requires numbers != [] && shift <= numbers[0] < |row| + shift
    requires forall i :: 1 <= i < |numbers| ==> numbers[0] < numbers[i]
    ensures var p := numbers[0] - shift;
      ErasePositions(row[..p] + row[p + 1..], Positions(numbers[1..]), shift + 1)
        == ErasePositions(row, Positions(numbers), shift)
  {
    var p := numbers[0] - shift;
    var all, rest := Positions(numbers), Positions(numbers[1..]);
    PositionsFirst(numbers);
    var before, after := row[..p], row[p + 1..];
    // the remaining pops, seen from the shorter row
    KeepPrefix(before, after, rest, shift + 1);
    // the same positions, seen from the original row
    assert row == row[..p] + ([row[p]] + row[p + 1..]);
    EraseAroundDropped(before, row[p], after, all, shift);
    EraseAgree(after, all, rest, shift + p + 1);
  }

  /** The shift counter of `remove_columns` makes every pop hit the
      originally named position: for a strictly ascending list, the pops
      all succeed exactly when every position lies inside the row, and
      then they remove exactly those positions and keep the rest in
      order. */
  lemma {:induction false} RemoveColumnsShifted(numbers: seq<int>, row: Row, shift: int)
    requires StrictlyAscending(numbers)
    requires forall i :: 0 <= i < |numbers| ==> shift <= numbers[i]
    ensures RemoveColumnsFrom(numbers, row, shift).Ok?
        <==> forall i :: 0 <= i < |numbers| ==> numbers[i] < |row| + shift
    ensures RemoveColumnsFrom(numbers, row, shift).Ok? ==>
        RemoveColumnsFrom(numbers, row, shift).value == ErasePositions(row, Positions(numbers), shift)
    decreases |numbers|
  {
    if numbers == [] {
      EraseNone(row, Positions(numbers), shift);
    } else {
      var p := numbers[0] - shift;
      if p < |row| {
        var row' := row[..p] + row[p + 1..];
        assert Pop(row, p) == Ok(row');
        var rest := numbers[1..];
        assert forall i :: 0 <= i < |rest| ==> rest[i] == numbers[i + 1];
        RemoveColumnsShifted(rest, row', shift + 1);
        ErasePopped(numbers, row, shift);
      }
    }
  }

  /** Erasing a row from position `lo` on: the fields up to `mid` are
      all removed. */
  lemma DropRange(t: Row, lo: nat, mid: nat, drop: set<int>)
    requires lo <= mid <= |t|
    requires forall i :: lo <= i < mid ==> i in drop
    ensures ErasePositions(t[lo..], drop, lo) == ErasePositions(t[mid..], drop, mid)
  {
    assert t[lo..] == t[lo..mid] + t[mid..];
    DropPrefix(t[lo..mid], t[mid..], drop, lo);
  }

  /** Erasing a row from position `lo` on: the fields up to `mid` are
      all kept. */
  lemma KeepRange(t: Row, lo: nat, mid: nat, drop: set<int>)
    requires lo <= mid <= |t|
    requires forall i :: lo <= i < mid ==> i !in drop
    ensures ErasePositions(t[lo..], drop, lo) == t[lo..mid] + ErasePositions(t[mid..], drop, mid)
  {
    assert t[lo..] == t[lo..mid] + t[mid..];
    KeepPrefix(t[lo..mid], t[mid..], drop, lo);
  }

  /** A run of removed positions followed by a run of kept ones. */
  lemma DropKeepRange(t: Row, lo: nat, mid: nat, hi: nat, drop: set<int>)
    requires lo <= mid <= hi <= |t|
    requires forall i :: lo <= i < mid ==> i in drop
    requires forall i :: mid <= i < hi ==> i !in drop
    ensures ErasePositions(t[lo..], drop, lo) == t[mid..hi] + ErasePositions(t[hi..], drop, hi)
  {
    DropRange(t, lo, mid, drop);
    KeepRange(t, mid, hi, drop);
  }

  /** The positions `RemovedColumns` names. */
  const RemovedPositions: set<int> := {1, 2, 13, 14, 15, 17, 18, 21, 22, 23, 24}

  // The fixed position list, walked from the back in runs of removed
  // and kept columns.

  lemma ErasedFrom21(t: Row)
    requires |t| >= 25
    ensures ErasePositions(t[21..], RemovedPositions, 21) == t[25..]
  {
    DropKeepRange(t, 21, 25, |t|, RemovedPositions);
    assert ErasePositions(t[|t|..], RemovedPositions, |t|) == [];
  }

  lemma ErasedFrom17(t: Row)
    requires |t| >= 25
    ensures ErasePositions(t[17..], RemovedPositions, 17) == t[19..21] + t[25..]
  {
    DropKeepRange(t, 17, 19, 21, RemovedPositions);
    ErasedFrom21(t);
  }

  lemma ErasedFrom13(t: Row)
    requires |t| >= 25
    ensures ErasePositions(t[13..], RemovedPositions, 13) == [t[16], t[19], t[20]] + t[25..]
  {
    DropKeepRange(t, 13, 16, 17, RemovedPositions);
    ErasedFrom17(t);
  }

  lemma ErasedFrom1(t: Row)
    requires |t| >= 25
    ensures ErasePositions(t[1..], RemovedPositions, 1) == t[3..13] + [t[16], t[19], t[20]] + t[25..]
  {
    DropKeepRange(t, 1, 3, 13, RemovedPositions);
    ErasedFrom13(t);
  }

  lemma ErasedFrom0(t: Row)
    requires |t| >= 25
    ensures ErasePositions(t, RemovedPositions, 0)
         == [t[0]] + (t[3..13] + [t[16], t[19], t[20]] + t[25..])
  {
    assert t[0..] == t;
    KeepRange(t, 0, 1, RemovedPositions);
    ErasedFrom1(t);
    assert t[0..1] == [t[0]];
  }

  /** The fixed list names exactly `RemovedPositions`. */
  lemma RemovedColumnsPositions()
    ensures Positions(RemovedColumns) == RemovedPositions
  {
    var d := RemovedColumns;
    assert forall x :: x in RemovedPositions ==> x in Positions(d) by {
      assert d[0] == 1 && d[1] == 2 && d[2] == 13 && d[3] == 14 && d[4] == 15 && d[5] == 17;
      assert d[6] == 18 && d[7] == 21 && d[8] == 22 && d[9] == 23 && d[10] == 24;
    }
  }

  /** The fixed list is strictly ascending, names `RemovedPositions` and
      ends at position 24. */
  lemma RemovedColumnsShape()
    ensures StrictlyAscending(RemovedColumns)
    ensures forall i :: 0 <= i < |RemovedColumns| ==> 0 <= RemovedColumns[i] <= 24
    ensures RemovedColumns[10] == 24
    ensures Positions(RemovedColumns) == RemovedPositions
  {
    RemovedColumnsPositions();
  }

  /** Pruning faults on every row of at most 24 fields; otherwise it
      keeps columns 0, 3-12, 16, 19, 20 and, when the row has it, 25. */
  lemma PruneSelects(raw: Row)
    ensures RemoveColumns(RemovedColumns, Truncate(raw, TruncateWidth)).Ok? <==> |raw| >= 25
    ensures |raw| >= 25 ==>
      var t := Truncate(raw, TruncateWidth);
      RemoveColumns(RemovedColumns, t).value
        == [t[0]] + (t[3..13] + [t[16], t[19], t[20]] + t[25..])
  {
    var t := Truncate(raw, TruncateWidth);
    RemovedColumnsShape();
    RemoveColumnsShifted(RemovedColumns, t, 0);
    if |raw| >= 25 {
      ErasedFrom0(t);
    }
  }

  /** The fields of that shape, read as positions of the raw row. */
  lemma KeptFields(raw: Row, kept: Row)
    requires |raw| >= 25
    requires var t := Truncate(raw, TruncateWidth);
      kept == [t[0]] + (t[3..13] + [t[16], t[19], t[20]] + t[25..])
    ensures |kept| == if |raw| >= TruncateWidth then 15 else 14
    ensures forall k :: 0 <= k < |kept| ==> 0 <= KeptColumns[k] < |raw| && kept[k] == raw[KeptColumns[k]]
  {
    var t := Truncate(raw, TruncateWidth);
    var tail := t[3..13] + [t[16], t[19], t[20]] + t[25..];
    forall k | 0 <= k < |kept|
      ensures 0 <= KeptColumns[k] < |raw| && kept[k] == raw[KeptColumns[k]]
    {
      if k == 0 {
      } else if k < 11 {
        assert kept[k] == tail[k - 1] == t[3..13][k - 1];
      } else if k < 14 {
        assert kept[k] == tail[k - 1] == [t[16], t[19], t[20]][k - 11];
      } else {
        assert kept[k] == tail[k - 1] == t[25..][0];
      }
    }
  }

  /** Once the first `k` pops have succeeded, a pop at an original position
      past the end of the row fails, and its IndexError names the shifted
      index `numbers[k] - shift - k` that was actually popped. */
  lemma {:induction false} RemoveColumnsFault(numbers: seq<int>, row: Row, shift: int, k: nat)
    requires StrictlyAscending(numbers)
    requires forall i :: 0 <= i < |numbers| ==> shift <= numbers[i]
    requires k < |numbers| && |row| + shift <= numbers[k]
    requires forall j :: 0 <= j < k ==> numbers[j] < |row| + shift
    ensures RemoveColumnsFrom(numbers, row, shift) == Err(ColumnPop(numbers[k] - shift - k))
    decreases k
  {
    if k > 0 {
      var popped := Pop(row, numbers[0] - shift).value;
      var rest := numbers[1..];
      assert forall j :: 0 <= j < k - 1 ==> rest[j] == numbers[j + 1];
      RemoveColumnsFault(rest, popped, shift + 1, k - 1);
    }
  }

  /** A row of 22 to 24 fields runs out while popping original position
      `|raw|`, always at shifted index 14. */
  lemma PruneFault(raw: Row)
    requires 22 <= |raw| <= 24
    ensures RemoveColumns(RemovedColumns, Truncate(raw, TruncateWidth)) == Err(ColumnPop(14))
  {
    var k := |raw| - 14;
    RemovedColumnsShape();
    assert Truncate(raw, TruncateWidth) == raw;
    assert RemovedColumns[k] == |raw| && RemovedColumns[k - 1] < |raw|;
    RemoveColumnsFault(RemovedColumns, raw, 0, k);
  }

  /** `row[:26]` followed by `remove_columns` with the fixed position list:
      a fault on rows of at most 24 fields; otherwise the raw fields at the
      positions of `KeptColumns` that the row has, in order: all 15 of a
      row of 26 fields or more, the first 14 of a 25-field row. */
  function Prune(raw: Row): (r: Result<Row, IndexError>)
    ensures r.Ok? <==> |raw| >= 25
    ensures r.Err? ==> r.error.ColumnPop?
    ensures r.Err? && |raw| >= 22 ==> r.error == ColumnPop(14)
    ensures r.Ok? ==> |r.value| == if |raw| >= TruncateWidth then 15 else 14
    ensures r.Ok? ==> forall k :: 0 <= k < |r.value| ==>
      0 <= KeptColumns[k] < |raw| && r.value[k] == raw[KeptColumns[k]]
  {
    PruneSelects(raw);
    var r := RemoveColumns(RemovedColumns, Truncate(raw, TruncateWidth));
    if r.Ok? then KeptFields(raw, r.value); r
    else if |raw| >= 22 then PruneFault(raw); r
    else r
  }
}

=== FILE: results.dfy ===
/** Failure-compatible result type for the index faults the roster
    pipeline can raise. The source never catches these faults: a fault
    ends the whole run. */
module Results {

  /** Either a value or the error that stopped the computation. */
  datatype Result<+T, +E> = Ok(value: T) | Err(error: E) {

    predicate IsFailure() {
      Err?
    }

    function PropagateFailure<U>(): Result<U, E>
      requires Err?
    {
      Err(error)
    }

    function Extract(): T
      requires Ok?
    {
      value
    }
  }

  /** The list-index faults of the pipeline. */
  datatype IndexError =
    | StatusRead             // `row[21]` on a raw row of at most 21 fields
    | ColumnPop(index: int)  // `row.pop(index)` with an index out of range
}

=== FILE: roster.dfy ===
/** `create_sheets`: the loop over the lines of the combined roster file
    that cleans and splits each line, filters inactive rows once the
    header has been seen, prunes the row, and sends the header to all
    four sheets and every later row to the sheets `append_rows` picks. */
module Roster {
  import opened Results
  import opened Text
  import opened Columns
  import opened Classify

  const Tab: char := '\t'
  /** Raw column holding the member's status. */
  const StatusColumn: int := 21
  const ActiveStatus: string := "Active"
  /** Pruned column 0 of the header line. */
  const HeaderMarker: string := "GPO ID"
  /** Header of the inserted affiliate column. */
  const HeaderLabel: string := "Top Parent Affiliate"

  /** Quotes and newlines removed, then split at tabs. Each tab of the
      line separates two fields, and the tab-joined fields give back the
      cleaned line. */
  function Fields(line: string): (r: Row)
    ensures |r| == multiset(line)[Tab] + 1
    ensures Join(r, Tab) == Clean(line)
  {
    JoinSplit(Clean(line), Tab);
    SplitContract(Clean(line), Tab);
    CleanContract(line);
    Split(Clean(line), Tab)
  }

  /** Whether the loop has appended the header yet (`first_row_appended`),
      and the rows of the four sheets so far. */
  datatype State = State(headerSeen: bool, sheets: Sheets)

  const Initial: State := State(false, [[], [], [], []])

  /** Before the header no sheet has a row; after it every sheet starts
      with the same header row. */
  predicate WellFormed(st: State) {
    if st.headerSeen then
      && (forall k :: 0 <= k < 4 ==> |st.sheets[k]| > 0)
      && (forall k :: 0 <= k < 4 ==> st.sheets[k][0] == st.sheets[0][0])
    else
      forall k :: 0 <= k < 4 ==> st.sheets[k] == []
  }

  /** The header row as written to the sheets. */
  function HeaderRow(pruned: Row): Row {
    InsertBeforeLast(pruned, HeaderLabel)
  }

  /** The end of one iteration, once the row has been pruned. Before the
      header, a row starting with "GPO ID" goes to all four sheets with
      the affiliate header inserted, and any other row is dropped; after
      it, the row goes through `append_rows`. */
  function Accept(ids: IdLists, st: State, pruned: Row): (r: State)
    requires |pruned| > TopParentColumn
    ensures st.headerSeen ==> r.headerSeen
    ensures forall k :: 0 <= k < 4 ==> st.sheets[k] <= r.sheets[k]
    ensures !r.headerSeen ==> r == st
    ensures WellFormed(st) ==> WellFormed(r)
  {
    if st.headerSeen then
      State(true, AppendRows(ids, st.sheets, pruned))
    else if pruned[0] == HeaderMarker then
      var header := HeaderRow(pruned);
      State(true, [st.sheets[0] + [header], st.sheets[1] + [header],
                   st.sheets[2] + [header], st.sheets[3] + [header]])
    else
      st
  }

  /** What the loop body can learn from a split line without looking at
      the state: a line without a status field, one with a status but too
      few fields to prune (and the fault pruning raises), or the status
      and the pruned row. Pruning has no side effect, so computing it
      ahead changes nothing. */
  datatype Line =
    | NoStatus
    | Unprunable(status: string, popIndex: int)
    | Pruned(status: string, row: PrunedRow)

  /** A pruned row: 14 or 15 fields. */
  type PrunedRow = r: Row | |r| >= 14 witness ["", "", "", "", "", "", "", "", "", "", "", "", "", ""]

  function Parse(fields: Row): (p: Line)
    ensures p.NoStatus? <==> |fields| <= StatusColumn
    ensures p.Unprunable? <==> StatusColumn < |fields| < 25
    ensures !p.NoStatus? ==> p.status == fields[StatusColumn]
    ensures p.Unprunable? ==> Prune(fields) == Err(ColumnPop(p.popIndex))
    ensures p.Pruned? ==> Prune(fields) == Ok(p.row)
  {
    if |fields| <= StatusColumn then NoStatus
    else
      match Prune(fields)
      case Err(e) => Unprunable(fields[StatusColumn], e.index)
      case Ok(row) => Pruned(fields[StatusColumn], row)
  }

  /** One iteration of the loop. Reading the status faults on a line of
      at most 21 fields, before the header as well as after it; after the
      header, a status other than "Active" skips the line; otherwise the
      row is pruned, which faults on 22 to 24 fields, and accepted. */
  function Step(ids: IdLists, st: State, line: Line): Result<State, IndexError>
  {
    match line
    case NoStatus => Err(StatusRead)
    case Unprunable(status, popIndex) =>
      if st.headerSeen && status != ActiveStatus then Ok(st) else Err(ColumnPop(popIndex))
    case Pruned(status, row) =>
      if st.headerSeen && status != ActiveStatus then Ok(st) else Ok(Accept(ids, st, row))
  }

  /** When one iteration faults, and how: a status-read fault exactly
      when the line has no status field, a pop fault when the line cannot
      be pruned and is not skipped as inactive. A skipped line leaves the
      state alone, and an accepted one only appends to the sheets and
      keeps the state well formed. */
  lemma StepContract(ids: IdLists, st: State, line: Line)
    ensures Step(ids, st, line) == Err(StatusRead) <==> line.NoStatus?
    ensures Step(ids, st, line).Err? <==>
      (line.NoStatus? || (line.Unprunable? && !(st.headerSeen && line.status != ActiveStatus)))
    ensures !line.NoStatus? && st.headerSeen && line.status != ActiveStatus ==> Step(ids, st, line) == Ok(st)
    ensures Step(ids, st, line).Ok? ==>
      forall k :: 0 <= k < 4 ==> st.sheets[k] <= Step(ids, st, line).value.sheets[k]
    ensures Step(ids, st, line).Ok? && WellFormed(st) ==> WellFormed(Step(ids, st, line).value)
  {
  }

  /** The first line that faulted, counted from 0, and its fault. */
  datatype LineFault = LineFault(line: nat, error: IndexError)

  /** The loop over the parsed lines, the first of which is line number
      `first`: the first fault ends the whole run. */
  function Run(ids: IdLists, st: State, lines: seq<Line>, first: nat): Result<State, LineFault>
    decreases |lines|
  {
    if lines == [] then Ok(st)
    else
      match Step(ids, st, lines[0])
      case Err(e) => Err(LineFault(first, e))
      case Ok(next) => Run(ids, next, lines[1..], first + 1)
  }

  /** A fault names one of the lines run over. */
  lemma {:induction false} RunFaultLine(ids: IdLists, st: State, lines: seq<Line>, first: nat)
    ensures Run(ids, st, lines, first).Err? ==>
      first <= Run(ids, st, lines, first).error.line < first + |lines|
    decreases |lines|
  {
    if lines != [] {
      var step := Step(ids, st, lines[0]);
      if step.Ok? {
        RunFaultLine(ids, step.value, lines[1..], first + 1);
      }
    }
  }

  /** A run without fault read a status on every line, only ever
      appended to the sheets, and kept the state well formed. */
  lemma {:induction false} RunOk(ids: IdLists, st: State, lines: seq<Line>, first: nat)
    requires Run(ids, st, lines, first).Ok?
    ensures forall i :: 0 <= i < |lines| ==> !lines[i].NoStatus?
    ensures forall k :: 0 <= k < 4 ==> st.sheets[k] <= Run(ids, st, lines, first).value.sheets[k]
    ensures WellFormed(st) ==> WellFormed(Run(ids, st, lines, first).value)
    decreases |lines|
  {
    if lines != [] {
      StepContract(ids, st, lines[0]);
      var next := Step(ids, st, lines[0]).value;
      assert Run(ids, st, lines, first) == Run(ids, next, lines[1..], first + 1);
      RunOk(ids, next, lines[1..], first + 1);
      assert forall i :: 1 <= i < |lines| ==> lines[i] == lines[1..][i - 1];
    }
  }

  /** A decoded line of the file, cleaned, split and parsed. */
  function ParseLine(line: string): Line {
    Parse(Fields(line))
  }

  /** Every line parsed ahead of the loop. */
  function ParseLines(lines: seq<string>): (parsed: seq<Line>)
    ensures |parsed| == |lines|
    ensures forall i :: 0 <= i < |lines| ==> parsed[i] == ParseLine(lines[i])
  {
    seq(|lines|, i requires 0 <= i < |lines| => ParseLine(lines[i]))
  }

  /** The loop starts with no header and four empty sheets. */
  lemma InitialWellFormed()
    ensures WellFormed(Initial)
  {
  }

  /** In a well-formed state, whether the header has been seen can be
      read off the first sheet. */
  lemma HeaderSeenIffRows(st: State)
    requires WellFormed(st)
    ensures st.headerSeen <==> st.sheets[0] != []
  {
  }

  /** `create_sheets` on the decoded lines of the combined file, with the
      given ID lists: the four sheets, or the first fault. Every line of a
      run without fault has a status field, and the sheets are either all
      empty or all start with the same header row. */
  function CreateSheetsWith(ids: IdLists, lines: seq<string>): (r: Result<Sheets, LineFault>)
    ensures r.Err? ==> r.error.line < |lines|
    ensures r.Ok? ==> forall i :: 0 <= i < |lines| ==> |Fields(lines[i])| > StatusColumn
    ensures r.Ok? ==> WellFormed(State(r.value[0] != [], r.value))
  {
    InitialWellFormed();
    var r := Run(ids, Initial, ParseLines(lines), 0);
    RunFaultLine(ids, Initial, ParseLines(lines), 0);
    if r.Err? then Err(r.error)
    else
      RunOk(ids, Initial, ParseLines(lines), 0);
      HeaderSeenIffRows(r.value);
      assert State(r.value.sheets[0] != [], r.value.sheets) == r.value;
      Ok(r.value.sheets)
  }

  /** `create_sheets` with the operator's lists. */
  function CreateSheets(lines: seq<string>): Result<Sheets, LineFault>
  {
    CreateSheetsWith(OperatorLists, lines)
  }

  /** Running over `a + b` is running over `a`, then over `b` from the
      state reached; a fault in `a` ends the run there. */
  lemma {:induction false} RunAppend(ids: IdLists, st: State, a: seq<Line>, b: seq<Line>, first: nat)
    ensures Run(ids, st, a, first).Err? ==> Run(ids, st, a + b, first) == Run(ids, st, a, first)
    ensures Run(ids, st, a, first).Ok? ==>
      Run(ids, st, a + b, first) == Run(ids, Run(ids, st, a, first).value, b, first + |a|)
    decreases |a|
  {
    if a == [] {
      assert a + b == b && first + |a| == first;
      assert Run(ids, st, a, first).value == st;
    } else {
      assert (a + b)[0] == a[0] && (a + b)[1..] == a[1..] + b;
      var step := Step(ids, st, a[0]);
      if step.Err? {
        assert Run(ids, st, a + b, first) == Err(LineFault(first, step.error)) == Run(ids, st, a, first);
      } else {
        var rest := Run(ids, step.value, a[1..], first + 1);
        assert Run(ids, st, a + b, first) == Run(ids, step.value, a[1..] + b, first + 1);
        assert Run(ids, st, a, first) == rest;
        RunAppend(ids, step.value, a[1..], b, first + 1);
        if rest.Ok? {
          assert first + 1 + |a[1..]| == first + |a|;
        }
      }
    }
  }

  /** A line before the header that the loop prunes and drops: it prunes,
      and its first field is not "GPO ID". */
  predicate PreambleLine(line: Line) {
    line.Pruned? && line.row[0] != HeaderMarker
  }

  /** The header line: it prunes, and its first field is "GPO ID". */
  predicate HeaderLine(line: Line) {
    line.Pruned? && line.row[0] == HeaderMarker
  }

  /** A line after the header that does not fault: it has a status, and
      an active one prunes. */
  predicate DataLineOk(line: Line) {
    !line.NoStatus? && (line.status != ActiveStatus || line.Pruned?)
  }

  /** Before the header the loop prunes every line and keeps none but
      the header itself. */
  lemma {:induction false} RunBeforeHeader(ids: IdLists, st: State, pre: seq<Line>, first: nat)
    requires !st.headerSeen
    requires forall i :: 0 <= i < |pre| ==> PreambleLine(pre[i])
    ensures Run(ids, st, pre, first) == Ok(st)
    decreases |pre|
  {
    if pre != [] {
      assert PreambleLine(pre[0]);
      assert Step(ids, st, pre[0]) == Ok(st);
      RunBeforeHeader(ids, st, pre[1..], first + 1);
    }
  }

  /** Lines that leave the loop where it started can be skipped: what
      follows them runs as if they were absent, save the line numbers. */
  lemma RunAfterPreamble(ids: IdLists, pre: seq<Line>, rest: seq<Line>)
    requires Run(ids, Initial, pre, 0) == Ok(Initial)
    ensures Run(ids, Initial, pre + rest, 0) == Run(ids, Initial, rest, |pre|)
  {
    RunAppend(ids, Initial, pre, rest, 0);
  }

  /** The header line goes to all four sheets, with "Top Parent
      Affiliate" inserted before its last field. */
  lemma StepHeader(ids: IdLists, st: State, line: Line)
    requires !st.headerSeen && HeaderLine(line)
    ensures Step(ids, st, line) == Ok(State(true, [st.sheets[0] + [HeaderRow(line.row)],
      st.sheets[1] + [HeaderRow(line.row)], st.sheets[2] + [HeaderRow(line.row)],
      st.sheets[3] + [HeaderRow(line.row)]]))
  {
  }

  /** What a line after the header adds to sheet `k`: when the line is
      active, one copy of the labelled pruned row per match of
      `append_rows`; else nothing. */
  function Contribution(ids: IdLists, sheet: nat, line: Line): seq<Row>
  {
    if line.Pruned? && line.status == ActiveStatus then Repeat(LabelRow(line.row), Matches(ids, sheet, line.row))
    else []
  }

  /** With duplicate-free lists, such as the operator's, an active line
      adds its labelled row exactly to the sheets that `Receives` it. */
  lemma ContributionOnce(ids: IdLists, sheet: nat, line: Line)
    requires Distinct(ids)
    ensures Contribution(ids, sheet, line)
         == if line.Pruned? && line.status == ActiveStatus && Receives(ids, sheet, line.row)
            then [LabelRow(line.row)] else []
  {
    if line.Pruned? {
      NoDuplicatesCount(FamilyIds(ids, sheet), line.row[TopParentColumn]);
    }
  }

  /** The rows the lines after the header add to sheet `k`, in order. */
  function DataRows(ids: IdLists, sheet: nat, lines: seq<Line>): seq<Row>
    decreases |lines|
  {
    if lines == [] then []
    else Contribution(ids, sheet, lines[0]) + DataRows(ids, sheet, lines[1..])
  }

  /** After the header, one line adds its contribution to each sheet. */
  lemma StepAfterHeader(ids: IdLists, st: State, line: Line)
    requires st.headerSeen && DataLineOk(line)
    ensures Step(ids, st, line).Ok?
    ensures Step(ids, st, line).value.headerSeen
    ensures forall k :: 0 <= k < 4 ==>
      Step(ids, st, line).value.sheets[k] == st.sheets[k] + Contribution(ids, k, line)
  {
  }

  lemma AppendAssociative(a: seq<Row>, b: seq<Row>, c: seq<Row>)
    ensures a + b + c == a + (b + c)
  {
  }

  /** After the header, every sheet gains exactly the rows of `DataRows`,
      after the ones it had, in the order of the lines. */
  lemma {:induction false} RunAfterHeader(ids: IdLists, st: State, post: seq<Line>, first: nat)
    requires st.headerSeen
    requires forall i :: 0 <= i < |post| ==> DataLineOk(post[i])
    ensures Run(ids, st, post, first).Ok?
    ensures Run(ids, st, post, first).value.headerSeen
    ensures forall k :: 0 <= k < 4 ==>
      Run(ids, st, post, first).value.sheets[k] == st.sheets[k] + DataRows(ids, k, post)
    decreases |post|
  {
    if post != [] {
      StepAfterHeader(ids, st, post[0]);
      var next := Step(ids, st, post[0]).value;
      RunAfterHeader(ids, next, post[1..], first + 1);
      forall k | 0 <= k < 4
        ensures Run(ids, st, post, first).value.sheets[k] == st.sheets[k] + DataRows(ids, k, post)
      {
        AppendAssociative(st.sheets[k], Contribution(ids, k, post[0]), DataRows(ids, k, post[1..]));
      }
    }
  }

  /** The line kinds, read off the raw split fields: a preamble line and
      the header line have at least 25 fields and differ in field 0; a
      data line faults on neither the status read nor the pruning. */
  lemma LineKinds(fields: Row)
    ensures PreambleLine(Parse(fields)) <==> |fields| >= 25 && fields[0] != HeaderMarker
    ensures HeaderLine(Parse(fields)) <==> |fields| >= 25 && fields[0] == HeaderMarker
    ensures DataLineOk(Parse(fields)) <==>
      |fields| > StatusColumn && (fields[StatusColumn] != ActiveStatus || |fields| >= 25)
  {
    if |fields| >= 25 {
      assert Parse(fields).row[0] == fields[0];
    }
  }

  /** From the header line on, each sheet holds the header row and then
      the data rows meant for it. */
  lemma RunFromHeader(ids: IdLists, st: State, header: Line, post: seq<Line>, first: nat)
    requires st == Initial && HeaderLine(header)
    requires forall i :: 0 <= i < |post| ==> DataLineOk(post[i])
    ensures Run(ids, st, [header] + post, first).Ok?
    ensures forall k :: 0 <= k < 4 ==>
      Run(ids, st, [header] + post, first).value.sheets[k] == [HeaderRow(header.row)] + DataRows(ids, k, post)
  {
    StepHeader(ids, st, header);
    var next := Step(ids, st, header).value;
    assert ([header] + post)[0] == header && ([header] + post)[1..] == post;
    assert Run(ids, st, [header] + post, first) == Run(ids, next, post, first + 1);
    RunAfterHeader(ids, next, post, first + 1);
    assert forall k :: 0 <= k < 4 ==> next.sheets[k] == [HeaderRow(header.row)];
  }

  /** A file of preamble lines, the header line and data lines gives
      four sheets that each start with the header row and continue with
      the data rows meant for them, in file order. */
  lemma RunSpec(ids: IdLists, pre: seq<Line>, header: Line, post: seq<Line>)
    requires forall i :: 0 <= i < |pre| ==> PreambleLine(pre[i])
    requires HeaderLine(header)
    requires forall i :: 0 <= i < |post| ==> DataLineOk(post[i])
    ensures Run(ids, Initial, pre + [header] + post, 0).Ok?
    ensures forall k :: 0 <= k < 4 ==>
      Run(ids, Initial, pre + [header] + post, 0).value.sheets[k]
        == [HeaderRow(header.row)] + DataRows(ids, k, post)
  {
    assert pre + [header] + post == pre + ([header] + post);
    RunBeforeHeader(ids, Initial, pre, 0);
    RunAfterPreamble(ids, pre, [header] + post);
    RunFromHeader(ids, Initial, header, post, |pre|);
  }

  /** `RunSpec` with the header at position `h` of the lines. */
  lemma RunSpecAt(ids: IdLists, lines: seq<Line>, h: nat)
    requires h < |lines|
    requires forall i :: 0 <= i < h ==> PreambleLine(lines[i])
    requires HeaderLine(lines[h])
    requires forall i :: h < i < |lines| ==> DataLineOk(lines[i])
    ensures Run(ids, Initial, lines, 0).Ok?
    ensures forall k :: 0 <= k < 4 ==>
      Run(ids, Initial, lines, 0).value.sheets[k] == [HeaderRow(lines[h].row)] + DataRows(ids, k, lines[h + 1..])
  {
    assert lines == lines[..h] + [lines[h]] + lines[h + 1..];
    RunSpec(ids, lines[..h], lines[h], lines[h + 1..]);
  }

  /** The same for `create_sheets` with the operator's lists, the header
      being line `h` of the file. */
  lemma CreateSheetsSpec(lines: seq<string>, h: nat)
    requires h < |lines|
    requires forall i :: 0 <= i < h ==> PreambleLine(ParseLines(lines)[i])
    requires HeaderLine(ParseLines(lines)[h])
    requires forall i :: h < i < |lines| ==> DataLineOk(ParseLines(lines)[i])
    ensures CreateSheets(lines).Ok?
    ensures forall k :: 0 <= k < 4 ==>
      CreateSheets(lines).value[k]
        == [HeaderRow(ParseLines(lines)[h].row)] + DataRows(OperatorLists, k, ParseLines(lines)[h + 1..])
  {
    RunSpecAt(OperatorLists, ParseLines(lines), h);
  }

  /** Without a header line every line is dropped: four empty sheets. */
  lemma NoHeaderSpec(ids: IdLists, lines: seq<string>)
    requires forall i :: 0 <= i < |lines| ==> PreambleLine(ParseLines(lines)[i])
    ensures CreateSheetsWith(ids, lines) == Ok([[], [], [], []])
  {
    RunBeforeHeader(ids, Initial, ParseLines(lines), 0);
  }

  /** Before the header, a run without a fault over lines none of which
      is the header pruned every line: each one was a preamble line. */
  lemma {:induction false} RunNoHeader(ids: IdLists, st: State, ls: seq<Line>, first: nat)
    requires !st.headerSeen
    requires forall i :: 0 <= i < |ls| ==> !HeaderLine(ls[i])
    requires Run(ids, st, ls, first).Ok?
    ensures forall i :: 0 <= i < |ls| ==> PreambleLine(ls[i])
    decreases |ls|
  {
    if ls != [] {
      assert !HeaderLine(ls[0]);
      assert PreambleLine(ls[0]);
      assert Step(ids, st, ls[0]) == Ok(st);
      RunNoHeader(ids, st, ls[1..], first + 1);
      assert forall i :: 1 <= i < |ls| ==> ls[i] == ls[1..][i - 1];
    }
  }

  /** The converse of `NoHeaderSpec`: a file without a header line that
      does not fault consists of preamble lines only, and so gives four
      empty sheets. */
  lemma NoHeaderConverse(ids: IdLists, lines: seq<string>)
    requires forall i :: 0 <= i < |lines| ==> !HeaderLine(ParseLines(lines)[i])
    requires CreateSheetsWith(ids, lines).Ok?
    ensures forall i :: 0 <= i < |lines| ==> PreambleLine(ParseLines(lines)[i])
    ensures CreateSheetsWith(ids, lines) == Ok([[], [], [], []])
  {
    RunNoHeader(ids, Initial, ParseLines(lines), 0);
    NoHeaderSpec(ids, lines);
  }

  /** The first line whose step faults ends the run with that fault and
      that line's number, whatever follows. */
  lemma RunFaultsAt(ids: IdLists, st: State, pre: seq<Line>, line: Line, rest: seq<Line>, first: nat)
    requires Run(ids, st, pre, first).Ok?
    requires Step(ids, Run(ids, st, pre, first).value, line).Err?
    ensures Run(ids, st, pre + [line] + rest, first)
         == Err(LineFault(first + |pre|, Step(ids, Run(ids, st, pre, first).value, line).error))
  {
    assert pre + [line] + rest == pre + ([line] + rest);
    RunAppend(ids, st, pre, [line] + rest, first);
  }

  /** The first faulting line at position `i` of the lines. */
  lemma RunFaultsAtLine(ids: IdLists, lines: seq<Line>, i: nat)
    requires i < |lines|
    requires Run(ids, Initial, lines[..i], 0).Ok?
    requires Step(ids, Run(ids, Initial, lines[..i], 0).value, lines[i]).Err?
    ensures Run(ids, Initial, lines, 0)
         == Err(LineFault(i, Step(ids, Run(ids, Initial, lines[..i], 0).value, lines[i]).error))
  {
    assert lines == lines[..i] + [lines[i]] + lines[i + 1..];
    RunFaultsAt(ids, Initial, lines[..i], lines[i], lines[i + 1..], 0);
  }

  /** Parsing a prefix of the lines is taking a prefix of the parsed lines. */
  lemma ParseLinesPrefix(lines: seq<string>, i: nat)
    requires i <= |lines|
    ensures ParseLines(lines[..i]) == ParseLines(lines)[..i]
  {
  }

  /** In particular a line of at most 21 fields stops `create_sheets`
      with a status-read fault at that line, unless an earlier line
      faulted first, header or no header. */
  lemma ShortLineFaults(ids: IdLists, lines: seq<string>, i: nat)
    requires i < |lines| && |Fields(lines[i])| <= StatusColumn
    requires CreateSheetsWith(ids, lines[..i]).Ok?
    ensures CreateSheetsWith(ids, lines) == Err(LineFault(i, StatusRead))
  {
    var parsed := ParseLines(lines);
    ParseLinesPrefix(lines, i);
    assert parsed[i] == NoStatus;
    RunFaultsAtLine(ids, parsed, i);
  }
}

=== FILE: script.dfy ===
/** `run_script` around the classification loop: pick the roster link
    (`find_link`), stop when there is none, name the workbook after the
    month and day, and build the sheets of every combined roster file.
    The browser, the download, the zip archive, the directory listing and
    the clock are outside the model: the candidate links, the lines of
    the combined files and the date are inputs. */
module Script {
  import opened Results
  import opened Classify
  import opened Roster

  /** What `find_link` gives back: the link to follow, or the login
      failure it reports to the window. */
  datatype LinkChoice<L> = Found(link: L) | LoginFailed

  /** `find_link` on the roster links the page offers, most recent
      first: the first one, or a login failure when there is none. */
  function FindLink<L>(links: seq<L>): (r: LinkChoice<L>)
    ensures r.LoginFailed? <==> |links| == 0
    ensures r.Found? ==> r.link == links[0]
  {
    if |links| == 0 then LoginFailed else Found(links[0])
  }

  /** Older links offered after the most recent one never change the
      choice, and a single offered link is chosen. */
  lemma FindLinkMostRecent<L>(latest: L, older: seq<L>)
    ensures FindLink([latest] + older) == Found(latest)
    ensures FindLink([latest]) == Found(latest)
    ensures forall more: seq<L> :: FindLink([latest] + older + more) == FindLink([latest] + older)
  {
    forall more: seq<L>
      ensures FindLink([latest] + older + more) == FindLink([latest] + older)
    {
      assert ([latest] + older + more)[0] == latest;
    }
  }

  predicate IsDigit(c: char) {
    '0' <= c <= '9'
  }

  function DigitChar(d: nat): (c: char)
    requires d < 10
    ensures IsDigit(c)
  {
    ('0' as int + d) as char
  }

  function DigitValue(c: char): (d: nat)
    requires IsDigit(c)
    ensures d < 10
  {
    (c as int - '0' as int) as nat
  }

  /** Python's `str(n)` for a non-negative integer: decimal digits, most
      significant first, with no leading zero except for 0 itself. */
  function Decimal(n: nat): (s: string)
    ensures |s| >= 1
    ensures forall i :: 0 <= i < |s| ==> IsDigit(s[i])
    ensures s[0] == '0' ==> n == 0
    decreases n
  {
    if n < 10 then [DigitChar(n)]
    else Decimal(n / 10) + [DigitChar(n % 10)]
  }

  /** The number a string of decimal digits denotes. */
  function DecimalValue(s: string): nat
    requires forall i :: 0 <= i < |s| ==> IsDigit(s[i])
    decreases |s|
  {
    if s == [] then 0
    else DecimalValue(s[..|s| - 1]) * 10 + DigitValue(s[|s| - 1])
  }

  /** Reading the digits back gives the number: `Decimal` loses nothing. */
  lemma {:induction false} DecimalRoundTrip(n: nat)
    ensures DecimalValue(Decimal(n)) == n
    decreases n
  {
    var s := Decimal(n);
    if n < 10 {
      assert s[..|s| - 1] == [];
    } else {
      DecimalRoundTrip(n / 10);
      assert s[..|s| - 1] == Decimal(n / 10);
    }
  }

  /** Different numbers are written differently. */
  lemma DecimalInjective(m: nat, n: nat)
    requires Decimal(m) == Decimal(n)
    ensures m == n
  {
    DecimalRoundTrip(m);
    DecimalRoundTrip(n);
  }

  const NamePrefix: string := "MemberRoster_"
  const NameSuffix: string := ".xlsx"

  /** The workbook's file name for a date: month and day in decimal,
      unpadded, and no year. */
  function OutputFileName(month: nat, day: nat): (name: string)
    ensures |name| == |NamePrefix| + |Decimal(month)| + 1 + |Decimal(day)| + |NameSuffix|
    ensures name[..|NamePrefix|] == NamePrefix
    ensures name[|name| - |NameSuffix|..] == NameSuffix
    ensures name[|NamePrefix|..|name| - |NameSuffix|] == Decimal(month) + "_" + Decimal(day)
  {
    NamePrefix + Decimal(month) + "_" + Decimal(day) + NameSuffix
  }

  /** No zero-padding: March 7 and December 25. */
  lemma OutputFileNameExamples()
    ensures OutputFileName(3, 7) == "MemberRoster_3_7.xlsx"
    ensures OutputFileName(12, 25) == "MemberRoster_12_25.xlsx"
  {
    assert Decimal(12) == Decimal(1) + [DigitChar(2)];
    assert Decimal(25) == Decimal(2) + [DigitChar(5)];
  }

  /** In a separator-free part followed by the separator, the first
      separator sits right after the part. */
  lemma FirstUnderscore(a: string, b: string)
    requires '_' !in a
    ensures (a + "_" + b)[|a|] == '_'
    ensures forall i :: 0 <= i < |a| ==> (a + "_" + b)[i] != '_'
  {
    assert forall i :: 0 <= i < |a| ==> (a + "_" + b)[i] == a[i];
  }

  /** Two separator-free parts joined by the separator split back
      uniquely. */
  lemma JoinedPartsUnique(a: string, b: string, c: string, d: string)
    requires '_' !in a && '_' !in c
    requires a + "_" + b == c + "_" + d
    ensures a == c && b == d
  {
    var x := a + "_" + b;
    FirstUnderscore(a, b);
    FirstUnderscore(c, d);
    assert |a| == |c|;
    assert a == x[..|a|] && c == x[..|c|];
    assert b == x[|a| + 1..] && d == x[|c| + 1..];
  }

  /** Decimal digits hold no underscore. */
  lemma DecimalHasNoUnderscore(n: nat)
    ensures '_' !in Decimal(n)
  {
    var s := Decimal(n);
    assert forall i :: 0 <= i < |s| ==> s[i] != '_';
  }

  /** Within a year the name tells the date: different (month, day)
      pairs never share a file name. The same month and day of two years
      always do, because the name carries no year. */
  lemma OutputFileNameInjective(m1: nat, d1: nat, m2: nat, d2: nat)
    requires OutputFileName(m1, d1) == OutputFileName(m2, d2)
    ensures m1 == m2 && d1 == d2
  {
    var n1, n2 := OutputFileName(m1, d1), OutputFileName(m2, d2);
    var mid1 := Decimal(m1) + "_" + Decimal(d1);
    var mid2 := Decimal(m2) + "_" + Decimal(d2);
    assert n1 == NamePrefix + mid1 + NameSuffix;
    assert n2 == NamePrefix + mid2 + NameSuffix;
    assert |mid1| == |mid2|;
    assert mid1 == n1[|NamePrefix|..|n1| - |NameSuffix|];
    assert mid2 == n2[|NamePrefix|..|n2| - |NameSuffix|];
    DecimalHasNoUnderscore(m1);
    DecimalHasNoUnderscore(m2);
    JoinedPartsUnique(Decimal(m1), Decimal(d1), Decimal(m2), Decimal(d2));
    DecimalInjective(m1, m2);
    DecimalInjective(d1, d2);
  }

  /** How `run_script` ends:
      - stopped for want of a roster link;
      - ended by a fault while building the sheets of a combined file,
        after the workbooks of the files before it were saved;
      - finished with the workbooks saved, in listing order, under the dated
        name (each save replaces the previous one);
      - ended by the FileNotFoundError of removing the downloaded archive a
        second time. `download_zip` writes `output.exe` once, and the loop
        removes it after every combined file, so a second combined file is
        saved and the run then stops, leaving any later file unbuilt. */
  datatype ScriptOutcome =
    | NoLink
    | Faulted(file: nat, fault: LineFault, saved: seq<Sheets>)
    | Finished(fileName: string, workbooks: seq<Sheets>)
    | ArchiveGone(fileName: string, workbooks: seq<Sheets>)

  /** The files handled one after the other: every value in order, or
      the first failure together with the values before it, whose number
      is the failure's position. */
  function FirstFault<T, E>(results: seq<Result<T, E>>): (r: Result<seq<T>, (seq<T>, E)>)
    ensures r.Ok? ==> |r.value| == |results|
    ensures r.Err? ==> |r.error.0| < |results|
    decreases |results|
  {
    if results == [] then Ok([])
    else
      match results[0]
      case Err(e) => Err(([], e))
      case Ok(v) =>
        match FirstFault(results[1..])
        case Err(e) => Err(([v] + e.0, e.1))
        case Ok(vs) => Ok([v] + vs)
  }

  /** Without a failure every value comes through in place; a failure
      reported is the first one, at its position, and the values before
      it come through in place. */
  lemma {:induction false} FirstFaultContract<T, E>(results: seq<Result<T, E>>)
    ensures FirstFault(results).Ok? <==> forall i :: 0 <= i < |results| ==> results[i].Ok?
    ensures FirstFault(results).Ok? ==>
      forall i :: 0 <= i < |results| ==> results[i] == Ok(FirstFault(results).value[i])
    ensures FirstFault(results).Err? ==>
      results[|FirstFault(results).error.0|] == Err(FirstFault(results).error.1)
    ensures FirstFault(results).Err? ==>
      forall i :: 0 <= i < |FirstFault(results).error.0| ==> results[i] == Ok(FirstFault(results).error.0[i])
    decreases |results|
  {
    if results != [] {
      FirstFaultContract(results[1..]);
      assert forall i :: 1 <= i < |results| ==> results[i] == results[1..][i - 1];
    }
  }

  /** `create_sheets` on each combined file, in listing order. */
  function BuildEach(files: seq<seq<string>>): (r: seq<Result<Sheets, LineFault>>)
    ensures |r| == |files|
    ensures forall i :: 0 <= i < |files| ==> r[i] == CreateSheets(files[i])
  {
    seq(|files|, i requires 0 <= i < |files| => CreateSheets(files[i]))
  }

  /** How many combined files the loop can handle before removing the
      archive a second time raises. */
  const ArchiveRemovals: nat := 1

  /** `run_script` once the browser has listed the roster links and the
      combined files have been extracted. Each file's sheets are built and
      saved under the dated name, and the archive is removed, until a fault
      ends the run or the archive is already gone. */
  function RunScript<L>(links: seq<L>, files: seq<seq<string>>, month: nat, day: nat): ScriptOutcome
  {
    if FindLink(links).LoginFailed? then NoLink
    else
      var handled := if |files| <= ArchiveRemovals then files else files[..ArchiveRemovals + 1];
      match FirstFault(BuildEach(handled))
      case Err(e) => Faulted(|e.0|, e.1, e.0)
      case Ok(books) =>
        if |files| <= ArchiveRemovals then Finished(OutputFileName(month, day), books)
        else ArchiveGone(OutputFileName(month, day), books)
  }

  /** The run stops exactly when no roster link is offered. At most one
      combined file can finish cleanly, with its workbook saved under the
      dated name. With two or more, the first two are built and saved
      before the archive removal fails, unless one of them faults first.
      A fault names the first file that faulted, and carries the
      workbooks saved for the files before it. */
  lemma RunScriptOutcome<L>(links: seq<L>, files: seq<seq<string>>, month: nat, day: nat)
    ensures RunScript(links, files, month, day).NoLink? <==> |links| == 0
    ensures RunScript(links, files, month, day).Finished? ==>
      && |files| <= 1
      && RunScript(links, files, month, day).fileName == OutputFileName(month, day)
      && |RunScript(links, files, month, day).workbooks| == |files|
      && forall i :: 0 <= i < |files| ==>
           CreateSheets(files[i]) == Ok(RunScript(links, files, month, day).workbooks[i])
    ensures RunScript(links, files, month, day).ArchiveGone? ==>
      && |files| >= 2
      && RunScript(links, files, month, day).fileName == OutputFileName(month, day)
      && |RunScript(links, files, month, day).workbooks| == 2
      && forall i :: 0 <= i < 2 ==>
           CreateSheets(files[i]) == Ok(RunScript(links, files, month, day).workbooks[i])
    ensures RunScript(links, files, month, day).Faulted? ==>
      var i := RunScript(links, files, month, day).file;
      && i < |files| && i < 2
      && CreateSheets(files[i]) == Err(RunScript(links, files, month, day).fault)
      && |RunScript(links, files, month, day).saved| == i
      && forall j :: 0 <= j < i ==> CreateSheets(files[j]) == Ok(RunScript(links, files, month, day).saved[j])
    ensures |links| > 0 && (forall i :: 0 <= i < |files| && i < 2 ==> CreateSheets(files[i]).Ok?) ==>
      if |files| <= 1 then RunScript(links, files, month, day).Finished?
      else RunScript(links, files, month, day).ArchiveGone?
  {
    var handled := if |files| <= ArchiveRemovals then files else files[..ArchiveRemovals + 1];
    FirstFaultContract(BuildEach(handled));
  }

  /** Two empty combined files: both workbooks are saved, and the second
      removal of the archive then ends the run. */
  lemma TwoFilesExample()
    ensures RunScript([0], [[], []], 3, 7)
         == ArchiveGone("MemberRoster_3_7.xlsx", [[[], [], [], []], [[], [], [], []]])
  {
    var empty: Sheets := [[], [], [], []];
    NoHeaderSpec(OperatorLists, []);
    assert CreateSheets([]) == Ok(empty);
    OutputFileNameExamples();
    var files: seq<seq<string>> := [[], []];
    assert files[..2] == files;
    var built := BuildEach(files);
    assert built == [Ok(empty), Ok(empty)];
    FirstFaultContract(built);
    assert FirstFault(built).value == [empty, empty];
  }

  /** A second combined file holding one short line: the first file's
      workbook is saved before the second file's status read faults. */
  lemma SecondFileFaultsExample()
    ensures RunScript([0], [[], ["x"]], 3, 7)
         == Faulted(1, LineFault(0, StatusRead), [[[], [], [], []]])
  {
    var empty: Sheets := [[], [], [], []];
    NoHeaderSpec(OperatorLists, []);
    assert CreateSheets([]) == Ok(empty);
    var short := ["x"];
    assert multiset("x") == multiset{'x'};
    assert |Fields("x")| == 1;
    assert short[..0] == [];
    ShortLineFaults(OperatorLists, short, 0);
    var files: seq<seq<string>> := [[], short];
    assert files[..2] == files;
    var built := BuildEach(files);
    FirstFaultContract(built);
  }

  /** Files listed after the second combined one never affect the run. */
  lemma RunScriptIgnoresLaterFiles<L>(links: seq<L>, files: seq<seq<string>>, month: nat, day: nat)
    requires |files| >= 2
    ensures RunScript(links, files, month, day) == RunScript(links, files[..2], month, day)
  {
    assert files[..2][..2] == files[..2];
  }
}

=== FILE: text.dfy ===
/** Line preprocessing: Python's `str.replace(c, "")` and `str.split(sep)`
    on one decoded line of the combined roster file. */
module Text {

  /** `s.replace(c, "")`: every occurrence of `c` dropped, everything else
      kept in order. */
  function Remove(s: string, c: char): (r: string)
    ensures |r| <= |s|
  {
    if s == [] then []
    else (if s[0] == c then [] else [s[0]]) + Remove(s[1..], c)
  }

  /** No `c` is left, a string without `c` is unchanged, and every other
      character keeps its number of occurrences. */
  lemma {:induction false} RemoveContract(s: string, c: char)
    ensures c !in Remove(s, c)
    ensures c !in s ==> Remove(s, c) == s
    ensures multiset(Remove(s, c)) == multiset(s)[c := 0]
    decreases |s|
  {
    if s != [] {
      RemoveContract(s[1..], c);
      assert s == [s[0]] + s[1..];
    }
  }

  /** Removal distributes over concatenation, so the order of the kept
      characters is the order they had in `s`. */
  lemma {:induction false} RemoveAppend(a: string, b: string, c: char)
    ensures Remove(a + b, c) == Remove(a, c) + Remove(b, c)
    decreases |a|
  {
    if a == [] {
      assert a + b == b;
    } else {
      assert (a + b)[1..] == a[1..] + b;
      RemoveAppend(a[1..], b, c);
    }
  }

  /** The two replacements of a raw line: quotes first, then newlines. */
  function Clean(line: string): string
  {
    Remove(Remove(line, '"'), '\n')
  }

  /** A cleaned line holds no quote and no newline, a line without
      either is unchanged, and every other character keeps its number of
      occurrences. */
  lemma CleanContract(line: string)
    ensures '"' !in Clean(line) && '\n' !in Clean(line)
    ensures '"' !in line && '\n' !in line ==> Clean(line) == line
    ensures forall x :: x != '"' && x != '\n' ==> multiset(Clean(line))[x] == multiset(line)[x]
  {
    var noQuotes := Remove(line, '"');
    RemoveContract(line, '"');
    RemoveContract(noQuotes, '\n');
    assert multiset(Clean(line))['"'] == multiset(noQuotes)['"'] == 0;
  }

  /** `s.split(sep)` with an explicit separator: never an empty list. */
  function Split(s: string, sep: char): (r: seq<string>)
    ensures |r| >= 1
  {
    if s == [] then [""]
    else
      var rest := Split(s[1..], sep);
      if s[0] == sep then [""] + rest
      else [[s[0]] + rest[0]] + rest[1..]
  }

  /** One more field than there are separators, and no field holding the
      separator. */
  lemma {:induction false} SplitContract(s: string, sep: char)
    ensures |Split(s, sep)| == multiset(s)[sep] + 1
    ensures forall i :: 0 <= i < |Split(s, sep)| ==> sep !in Split(s, sep)[i]
    decreases |s|
  {
    if s != [] {
      SplitContract(s[1..], sep);
      assert s == [s[0]] + s[1..];
      var rest := Split(s[1..], sep);
      if s[0] != sep {
        assert forall i :: 1 <= i < |Split(s, sep)| ==> Split(s, sep)[i] == rest[i];
      }
    }
  }

  /** `sep.join(fields)`, the inverse of `Split`. */
  function Join(fields: seq<string>, sep: char): string
  {
    if |fields| == 0 then ""
    else if |fields| == 1 then fields[0]
    else fields[0] + [sep] + Join(fields[1..], sep)
  }

  /** Joining fields after a leading empty field puts a separator first. */
  lemma JoinAfterEmpty(rest: seq<string>, sep: char)
    requires |rest| >= 1
    ensures Join([""] + rest, sep) == [sep] + Join(rest, sep)
  {
    assert ([""] + rest)[1..] == rest;
  }

  /** Joining fields whose first field gained a leading character. */
  lemma JoinAfterChar(c: char, rest: seq<string>, sep: char)
    requires |rest| >= 1
    ensures Join([[c] + rest[0]] + rest[1..], sep) == [c] + Join(rest, sep)
  {
    var fields := [[c] + rest[0]] + rest[1..];
    if |rest| > 1 {
      assert fields[1..] == rest[1..];
    }
  }

  /** Splitting loses nothing: joining the fields gives the line back. */
  lemma {:induction false} JoinSplit(s: string, sep: char)
    ensures Join(Split(s, sep), sep) == s
    decreases |s|
  {
    if s != [] {
      var rest := Split(s[1..], sep);
      JoinSplit(s[1..], sep);
      assert s == [s[0]] + s[1..];
      if s[0] == sep {
        JoinAfterEmpty(rest, sep);
      } else {
        JoinAfterChar(s[0], rest, sep);
      }
    }
  }

  /** A separator-free prefix glues onto the first field. */
  lemma {:induction false} SplitSeparatorFree(a: string, t: string, sep: char)
    requires sep !in a
    ensures Split(a + t, sep) == [a + Split(t, sep)[0]] + Split(t, sep)[1..]
    decreases |a|
  {
    if a == [] {
      var fields := Split(t, sep);
      assert a + t == t && a + fields[0] == fields[0];
      assert [fields[0]] + fields[1..] == fields;
    } else {
      assert (a + t)[0] == a[0];
      assert (a + t)[1..] == a[1..] + t;
      SplitSeparatorFree(a[1..], t, sep);
      assert [a[0]] + (a[1..] + Split(t, sep)[0]) == a + Split(t, sep)[0];
    }
  }

  /** A leading separator splits off an empty first field. */
  lemma SplitLeadingSeparator(t: string, sep: char)
    ensures Split([sep] + t, sep) == [""] + Split(t, sep)
  {
    assert ([sep] + t)[1..] == t;
  }

  /** Joining separator-free fields and splitting again gives the fields
      back, so `Split` and `Join` are mutually inverse. */
  lemma {:induction false} SplitJoin(fields: seq<string>, sep: char)
    requires |fields| >= 1
    requires forall i :: 0 <= i < |fields| ==> sep !in fields[i]
    ensures Split(Join(fields, sep), sep) == fields
    decreases |fields|
  {
    if |fields| == 1 {
      SplitSeparatorFree(fields[0], "", sep);
      assert fields[0] + "" == fields[0];
    } else {
      var rest := Join(fields[1..], sep);
      SplitJoin(fields[1..], sep);
      SplitLeadingSeparator(rest, sep);
      SplitSeparatorFree(fields[0], [sep] + rest, sep);
      assert fields[0] + ([sep] + rest) == Join(fields, sep);
      assert fields[0] + "" == fields[0];
      assert fields == [fields[0]] + fields[1..];
    }
  }
}
